=== FILE: README.md ===
# Vendinha debt ledger — a Dafny model

This project models the debt ledger of a store-credit app for one small
retailer. The app records who owes what in which month, how much has been
paid, and whether each debt is PENDENTE (pending) or QUITADA (settled). The
model covers four components:

- **Ledger store** (`components/dashboard.tsx`): the `Debt` record, `addDebt`,
  `updatePayment`, `deleteDebtsByCpf`/`handleDeleteClick` and the delete
  dialog's input handling. It also holds the filter effect and the stat-card
  aggregates.
- **Payment dialog** (`components/payment-dialog.tsx`): it turns an entered
  amount or a quick-pay click into the absolute paid total handed to
  `updatePayment`. It is the only place where `paidValue <= totalValue` is
  checked.
- **Creation form** (`components/debt-form.tsx`): it normalises cpf and phone
  to at most 11 digits, refuses a cpf whose length is not 11, defaults an
  empty paid value to 0, and resets its fields only when `addDebt` accepts.
- **Report generator** (`components/report-dialog.tsx`): a header, a rule of
  60 `=`, the summary counts and sums, a second rule, then one numbered block
  per debt.

Everything is pure and works over `seq<Debt>` in insertion order. Amounts are
whole cents (`int`). Each operation returns the next ledger; a refused
operation returns the ledger unchanged.

Files and modules:

| file | module | contents |
|---|---|---|
| `wrappers.dfy` | `Wrappers` | `Option` |
| `seqs.dfy` | `Seqs` | order-preserving `Filter`, `Count`, subsequences, pairwise properties |
| `text.dfy` | `Text` | digit stripping, truncation, `repeat`, whole-number and `toFixed(2)` rendering |
| `debt.dfy` | `DebtModel` | `Debt`, `Status`, `DebtInput`, the ledger invariants |
| `ledger.dfy` | `Ledger` | create, pay, delete, delete dialog |
| `query.dfy` | `Query` | filters and aggregates |
| `payment.dfy` | `Payment` | payment dialog, and the bound lemmas that combine it with the ledger |
| `debt_form.dfy` | `DebtForm` | creation form |
| `report.dfy` | `Report` | report entries and text |

The ledger invariant `DebtModel.Valid` has three parts:

- every status agrees with its amounts;
- no two debts share a (cpf, month) pair;
- no two debts share an id.

The payment bound `0 <= paidValue <= totalValue` (`AllWithinBounds`) is kept
separate, because the store does not enforce it.

What the store itself does not check:

- `updatePayment` checks neither the bound nor the id. It writes any value,
  and an unknown id leaves the list as it was, with no error. Only the
  payment dialog checks the upper bound.
- The cpf length is checked only by the creation form. `addDebt` checks only
  the (cpf, month) duplicate.
- `addDebt` does not compare `paidValue` with `totalValue`. A debt can be
  created with `paidValue > totalValue`: it is then QUITADA and its remaining
  amount is negative. `Ledger.AddDebt` states exactly when the bound survives
  a creation.
- `deleteDebtsByCpf` returns nothing; the model states the removed count as a
  property of the result.

## Model

| member | source | states |
|---|---|---|
| `Ledger.FindByKey` | components/dashboard.tsx:89 | finds a record iff some debt has the same cpf and month; the record it returns carries that cpf and month and is the first such record of the ledger |
| `Ledger.AddDebt` | components/dashboard.tsx:87-106 | refused iff a debt with the same (cpf, month) exists, and then the ledger is unchanged; otherwise exactly one record is appended, earlier records are untouched, the new record carries the input, id and creation time, and it is QUITADA iff paidValue >= totalValue; keeps key uniqueness and status consistency, keeps id uniqueness for a fresh id, and keeps the payment bound iff the input respects it |
| `Ledger.AppendKeepsInvariants` | components/dashboard.tsx:96-103 | appending a record keeps key and id uniqueness when it clashes with no earlier record, and keeps the payment bound exactly when the new record is within bounds |
| `Ledger.SecondAddSameKeyRefused` | components/dashboard.tsx:89-94 | a second creation with the same (cpf, month) is refused and leaves the ledger as the first creation left it |
| `Ledger.UpdatePayment` | components/dashboard.tsx:108-121 | length and order are kept; records with another id are unchanged; a record with the id changes only in paidValue (now newPaidValue) and status (QUITADA iff newPaidValue >= totalValue); an unknown id leaves the ledger unchanged |
| `Ledger.UpdatePaymentKeepsValid` | components/dashboard.tsx:109-121 | a payment keeps status consistency and key and id uniqueness |
| `Ledger.DeleteDebtsByCpf` | components/dashboard.tsx:126-130 | keeps exactly the records whose cpf differs, as a subsequence in original order; the number removed is the number of records with that cpf; keeps the ledger invariant and the payment bound |
| `Ledger.DeleteIdempotent` | components/dashboard.tsx:127 | deleting the same cpf twice equals deleting it once |
| `Ledger.HandleDeleteClick` | components/dashboard.tsx:132-136 | an empty field deletes nothing; otherwise it keeps exactly the records of other customers, in order, and removes as many records as that customer has |
| `Ledger.ConfirmDelete` | components/dashboard.tsx:284-290 | a disabled button deletes nothing; an enabled one keeps exactly the records whose cpf differs from the field's value, in order, and removes as many records as that customer has; a removed record has exactly the field's cpf, of length 11 |
| `Ledger.DeleteDialogRemovesOneCustomer` | components/dashboard.tsx:274-290 | whatever text the field receives in one change event, every removed record has an 11-digit cpf, and when the button is enabled every record of that cpf is removed |
| `Query.Contains` | components/dashboard.tsx:73 | cpf search is substring containment: true iff the search text occurs at some position |
| `Query.MonthSelection` | components/dashboard.tsx:76 | the selector value `"all"`, and only it, means no month filter; any other value filters on that month |
| `Query.ApplyFilters` | components/dashboard.tsx:69-85 | the view is a subsequence of the ledger; a record is in it iff it passes all three filters (empty search and "all" constrain nothing); its length is the number of matching records |
| `Query.FiltersConjunctive` | components/dashboard.tsx:70-84 | the three filters applied one after another equal one filter by their conjunction |
| `Query.MonthThenStatus` | components/dashboard.tsx:76-82 | filtering by month and then by status equals filtering by both at once |
| `Query.ClearedFiltersShowAll` | components/dashboard.tsx:138-142 | with the filters cleared the view is the whole ledger |
| `Query.SumsAgree` | components/dashboard.tsx:146-147 | sum of totals minus sum received equals the sum of per-debt remainders; under the payment bound that lies between 0 and the sum of totals |
| `Query.Summarize` | components/dashboard.tsx:144-147 | count is the view length; pending and settled count the records with each status and add up to the count; with consistent statuses pending counts the underpaid debts; total value is the sum of totalValue, received the sum of paidValue, outstanding their difference and also the sum of per-debt remainders; an empty view gives zeros |
| `Query.StatusCardsMatchStatusFilter` | components/dashboard.tsx:144-145 | the Pendentes and Quitadas cards equal the size of the view with the status selector set to that status |
| `Payment.HandleSubmit` | components/payment-dialog.tsx:25-49 | rejects a NaN or non-positive amount; rejects a resulting total above totalValue; otherwise pays paidValue + amount (additive) or amount (set-total), never above totalValue and positive when paidValue >= 0 |
| `Payment.HandleQuickPay` | components/payment-dialog.tsx:51-62 | calls `onUpdatePayment` iff the resulting total is at most totalValue, in both modes, with paidValue + amount (additive) or amount (set-total) |
| `Payment.QuickPayButtons` | components/payment-dialog.tsx:138-157 | buttons show only in additive mode with something left to pay; each amount is positive and at most the remainder; the last pays the whole remainder; every button is R$ 10, 20, 50 or the remainder, in ascending order, with no fixed amount shown twice; R$ 10/20/50 show iff the remainder reaches them |
| `Payment.QuickPayFixedButtons` | components/payment-dialog.tsx:142-155 | the buttons before "Quitar" are exactly the fixed amounts R$ 10, 20, 50 that the remainder reaches, in that order |
| `Payment.VisibleQuickPayAccepted` | components/payment-dialog.tsx:142-157 | pressing any visible button passes the bound check and raises paidValue by its amount |
| `Payment.Commit` | components/payment-dialog.tsx:47 | no call leaves the ledger unchanged; a call with v keeps the length, sets paidValue to v on the records with the dialog's id and recomputes their status, and leaves every other record unchanged |
| `Payment.SubmitToLedger` | components/payment-dialog.tsx:42-47 | a rejected submission leaves the ledger unchanged; an accepted one pays the dialog's debt the total `handleSubmit` computed and changes nothing else |
| `Payment.QuickPayToLedger` | components/payment-dialog.tsx:53-60 | a skipped quick pay leaves the ledger unchanged; an accepted one pays the dialog's debt the total `handleQuickPay` computed and changes nothing else |
| `Payment.PaymentWithinBounds` | components/dashboard.tsx:108-121 | for the dialog's debt in a ledger with unique ids, setting paidValue within [0, totalValue] keeps every record within bounds |
| `Payment.SubmitKeepsBounds` | components/payment-dialog.tsx:28-47 | every form submission, in either mode, keeps the payment bound of the whole ledger |
| `Payment.QuickPayKeepsBounds` | components/payment-dialog.tsx:142-157 | every visible quick-pay button keeps the payment bound of the whole ledger |
| `Payment.PayOffSettles` | components/payment-dialog.tsx:157 | in whole cents, quick-paying the remainder proposes exactly totalValue, and after `updatePayment` the record is fully paid and QUITADA |
| `DebtForm.FormatDigits` | components/debt-form.tsx:62-70 | `formatCpf` and `formatPhone` (the same body) output digits only, at most 11, a prefix of the input's digits, all of them when there are at most 11, and exactly the first 11 otherwise |
| `DebtForm.OnCpfChange` | components/debt-form.tsx:96 | only the cpf field changes, and it becomes `Text.FieldValue` of the text the field received in one change event, limited to 11 characters (`maxLength`) |
| `DebtForm.OnPhoneChange` | components/debt-form.tsx:108 | only the phone field changes, and it becomes `Text.FieldValue` of the text of one change event, limited to 11 characters |
| `DebtForm.FormatIdempotent` | components/debt-form.tsx:62-70 | formatting an already formatted cpf or phone returns it unchanged |
| `DebtForm.PrepareInput` | components/debt-form.tsx:34-47 | nothing is submitted iff the cpf length is not 11; the input carries the form's fields; an unparseable paid value becomes 0, a parsed one is kept |
| `DebtForm.HandleSubmit` | components/debt-form.tsx:31-60 | `onSubmit` is not called for a cpf length other than 11, and the ledger is unchanged; with an 11-character cpf, `onSubmit` refuses iff the (cpf, month) is already recorded, and a refusal leaves the ledger unchanged; acceptance appends one record built from the submitted input, id and creation time, QUITADA iff its paid value reaches its total; fields reset exactly when `onSubmit` returned true |
| `DebtForm.SubmittedCpfWellFormed` | components/debt-form.tsx:34-37 | when the cpf field was set through its change handler, every cpf in the ledger stays 11 digits after a submit |
| `Report.Entries` | components/report-dialog.tsx:44-58 | one entry per debt, in input order, numbered index + 1, carrying the debt's fields, remaining = totalValue - paidValue, and an observation iff the debt's observation is non-empty |
| `Report.EntriesAppend` | components/report-dialog.tsx:44-45 | numbering continues across a concatenation of debt lists |
| `Report.DetailsAppend` | components/report-dialog.tsx:44-58 | the printed blocks of a concatenation are the blocks of the first part followed by those of the second, numbered after it |
| `Report.Rule` | components/report-dialog.tsx:31 | the separator is exactly 60 `=` characters (also used at line 41) |
| `Report.GenerateReport` | components/report-dialog.tsx:23-61 | the text opens with the header and the summary of the whole input (counts and sums as `Query.Summarize` states them); an empty input prints only that, with all counts and sums zero and no blocks; otherwise the text ends with the block of the last debt, numbered with the input length |
| `Text.DigitsOf` | components/debt-form.tsx:63 | `replace(/\D/g, "")` keeps only digits, in order, as many as the input has (so every occurrence of each) |
| `Text.Truncate` | components/debt-form.tsx:64 | `slice(0, n)` is a prefix of length min(n, length) |
| `Text.NatToString` | components/report-dialog.tsx:34-36 | a whole number prints as a non-empty digit string with no leading zero: it starts with 0 only for the number 0, which prints as the single character `0` |
| `Text.ParseNatToString` | components/report-dialog.tsx:34-36 | a printed count reads back as the count |
| `Text.Fixed2` | components/report-dialog.tsx:37-39 | `toFixed(2)` of whole cents: a sign iff negative, the whole units printed without leading zeros, a point, then exactly two digits |
| `Text.Fixed2RoundTrip` | components/report-dialog.tsx:37-39 | a printed amount reads back as the same number of cents |
| `Text.FieldValue` | components/dashboard.tsx:274-279 | a digits-only field with `maxLength` n, given the text of one change event (a paste into the empty field, or its current digits plus one key), holds only digits, as many as there are among the first n characters of that text; they are a prefix of the text's digits, and all-digit text is kept up to n characters |
| `Text.FieldValueKeystroke` | components/debt-form.tsx:96 | one key pressed in a field with room left appends the key if it is a digit and otherwise leaves the field as it was |
| `Text.Repeat` | components/report-dialog.tsx:31 | `repeat(n)` has length n and consists of the repeated character |
| `Seqs.Filter` | components/dashboard.tsx:127 | `filter` keeps exactly the elements that pass, as a subsequence, and as many as pass |
| `Seqs.FilterUnique` | components/dashboard.tsx:73-81 | the three facts of `Filter` determine its result uniquely |
| `Seqs.FilterBoth` | components/dashboard.tsx:70-84 | filtering by p then by q equals filtering by p and q |
| `Seqs.FilterIdempotent` | components/dashboard.tsx:127 | filtering twice by the same predicate equals filtering once |

## Left out

- Loading and saving the ledger in `localStorage`, and the JSON round trip of `createdAt` (components/dashboard.tsx:52-66): browser storage I/O.
- Id and timestamp generation (`Date.now().toString()`, `new Date()`): `AddDebt` takes the id and the creation time as parameters. The clock gives no uniqueness guarantee, so the lemmas that need unique ids take them as a precondition.
- Floating-point money: amounts are whole cents. `Number.parseFloat` is a parameter (`string -> Option<int>`, with `None` standing for NaN). `toFixed(2)` is rendered exactly for whole cents; JavaScript's exponent notation for amounts of 1e21 and more is not modelled.
- Payment.PayOffSettles: holds in whole cents only. The app's amounts are IEEE doubles, and `paidValue + remainingAmount` can round above `totalValue`. For example, with totalValue 0.58 and paidValue 0.07 the sum is 0.07 + 0.51 = 0.5800000000000001, so the "Quitar" button calls nothing (components/payment-dialog.tsx:53-54). The model has no rounding, so it does not show this.
- `toLocaleString("pt-BR")` for dates: the report's generation time is a string parameter, and creation times are printed by a `formatDate` parameter.
- The report download through Blob, object URL and DOM anchor, and its dated file name (components/report-dialog.tsx:63-75): browser I/O.
- Browser form validation: the `required` number field for the total is modelled as the precondition of `DebtForm.PrepareInput` that the total parses. `min="0"` and the payment field's `max` are not modelled, so the store accepts negative amounts as the code does. `maxLength` on the delete, cpf and phone fields is modelled as truncating the text of one change event (a paste into the empty field, or the field's digits plus one key) to 11 characters before the non-digits are stripped.
- The 12 month tokens of the month selectors: months are free strings, as in `addDebt`. The form's month selector is not `required`, so an empty month can be submitted.
- components/login-form.tsx and app/page.tsx: a fixed password check and an auth flag, with no ledger logic.
- components/debt-list.tsx: pure rendering. Its one rule, that the payment button shows only for PENDENTE, is not modelled.
- React state and dialog plumbing (opening and closing dialogs, `setSelectedDebt(null)`, clearing the delete field) and every `alert`. A rejection is modelled as a distinct result value: `Payment.Submission`, `None`, or `accepted == false`.
- `Report.GenerateReport`: the contract states that the text opens with the summary of the input, the empty case, and that the last block closes the text. It does not state the full character-level layout, which is the function's definition; the content of each block is stated on `Report.Entries`.

=== FILE: debt.dfy ===
/** The `Debt` record of the ledger and the invariants its collection keeps.
    Amounts are whole cents; `createdAt` is a timestamp in milliseconds. */
module DebtModel {
  import opened Seqs

  /** `"PENDENTE" | "QUITADA"`. */
  datatype Status = Pendente | Quitada {
    /** The token stored in the record and printed in the report. */
    function Token(): string {
      match this
      case Pendente => "PENDENTE"
      case Quitada => "QUITADA"
    }
  }

  /** The status every mutation derives from the two amounts. */
  function StatusFor(paidValue: int, totalValue: int): Status {
    if paidValue >= totalValue then Quitada else Pendente
  }

  datatype Debt = Debt(
    id: string,
    name: string,
    cpf: string,
    phone: string,
    totalValue: int,
    paidValue: int,
    month: string,
    observation: string,
    status: Status,
    createdAt: int)

  /** What the creation form hands to the store: a `Debt` without `id`,
      `status` and `createdAt`. */
  datatype DebtInput = DebtInput(
    name: string,
    cpf: string,
    phone: string,
    totalValue: int,
    paidValue: int,
    month: string,
    observation: string)

  /** `totalValue - paidValue`: what is still owed. */
  function Remaining(d: Debt): int {
    d.totalValue - d.paidValue
  }

  /** The length of a cpf, and the character limit of the cpf, phone and
      delete fields. */
  const MaxDigits: nat := 11

  predicate StatusConsistent(d: Debt) {
    d.status == StatusFor(d.paidValue, d.totalValue)
  }

  /** The payment bound `0 <= paidValue <= totalValue`. */
  predicate WithinBounds(d: Debt) {
    0 <= d.paidValue <= d.totalValue
  }

  predicate AllConsistent(debts: seq<Debt>) {
    forall d :: d in debts ==> StatusConsistent(d)
  }

  predicate AllWithinBounds(debts: seq<Debt>) {
    forall d :: d in debts ==> WithinBounds(d)
  }

  /** Two debts for different customers or different months. */
  predicate DistinctKeys(a: Debt, b: Debt) {
    a.cpf != b.cpf || a.month != b.month
  }

  predicate DistinctIds(a: Debt, b: Debt) {
    a.id != b.id
  }

  /** At most one debt per (cpf, month). */
  predicate UniqueKeys(debts: seq<Debt>) {
    Pairwise(debts, DistinctKeys)
  }

  predicate UniqueIds(debts: seq<Debt>) {
    Pairwise(debts, DistinctIds)
  }

  /** The ledger invariant the store's own operations keep. */
  predicate Valid(debts: seq<Debt>) {
    AllConsistent(debts) && UniqueKeys(debts) && UniqueIds(debts)
  }
}

=== FILE: debt_form.dfy ===
/** The creation form of `components/debt-form.tsx`: the change handlers
    that normalise cpf and phone, and `handleSubmit`, which gates on the cpf
    length, converts the amounts and hands the input to the ledger's
    `addDebt`. */
module DebtForm {
  import opened Wrappers
  import opened Seqs
  import opened Text
  import opened DebtModel
  import opened Ledger

  /** The form's fields, as typed. */
  datatype FormData = FormData(
    name: string,
    cpf: string,
    phone: string,
    totalValue: string,
    paidValue: string,
    month: string,
    observation: string)

  /** Every field cleared. */
  const EmptyForm: FormData := FormData("", "", "", "", "", "", "")

  /** `formatCpf` and `formatPhone`, which the form defines with the same
      body: strip every non-digit and keep at most 11 digits. */
  function FormatDigits(value: string): (r: string)
    ensures AllDigits(r) && |r| <= MaxDigits
    ensures r <= DigitsOf(value)
    ensures |DigitsOf(value)| <= MaxDigits ==> r == DigitsOf(value)
    ensures |DigitsOf(value)| >= MaxDigits ==> |r| == MaxDigits
  {
    Truncate(DigitsOf(value), MaxDigits)
  }

  /** Formatting an already formatted value returns it unchanged. */
  lemma FormatIdempotent(value: string)
    ensures FormatDigits(FormatDigits(value)) == FormatDigits(value)
  {
    DigitsOfDigits(FormatDigits(value));
  }

  /** The cpf field's change handler on one change event whose text is
      `raw`; the input's `maxLength` keeps only its first 11 characters. */
  function OnCpfChange(form: FormData, raw: string): (r: FormData)
    ensures r == form.(cpf := r.cpf)
    ensures r.cpf == FieldValue(raw, MaxDigits)
  {
    form.(cpf := FormatDigits(Truncate(raw, MaxDigits)))
  }

  /** The phone field's change handler, on one change event. */
  function OnPhoneChange(form: FormData, raw: string): (r: FormData)
    ensures r == form.(phone := r.phone)
    ensures r.phone == FieldValue(raw, MaxDigits)
  {
    form.(phone := FormatDigits(Truncate(raw, MaxDigits)))
  }

  /** The input `handleSubmit` passes to `onSubmit`, or `None` when the cpf
      does not have 11 characters ("CPF deve ter 11 dígitos!"). `parse`
      stands for `Number.parseFloat` into cents (`None` for `NaN`); the
      total field is a required number field, so the browser only submits
      the form when it parses. */
  function PrepareInput(form: FormData, parse: string -> Option<int>): (r: Option<DebtInput>)
    requires parse(form.totalValue).Some?
    ensures r.None? <==> |form.cpf| != MaxDigits
    ensures r.Some? ==>
      && r.value.name == form.name && r.value.cpf == form.cpf
      && r.value.phone == form.phone && r.value.month == form.month
      && r.value.observation == form.observation
      && r.value.totalValue == parse(form.totalValue).value
    ensures r.Some? && parse(form.paidValue).None? ==> r.value.paidValue == 0
    ensures r.Some? && parse(form.paidValue).Some? ==> r.value.paidValue == parse(form.paidValue).value
  {
    if |form.cpf| != MaxDigits then None
    else
      Some(DebtInput(
        form.name, form.cpf, form.phone,
        parse(form.totalValue).value,
        parse(form.paidValue).GetOr(0),
        form.month, form.observation))
  }

  /** The form and the ledger after a submit, and what `onSubmit` returned
      (`None` when it was not called). */
  datatype SubmitStep = SubmitStep(form: FormData, debts: seq<Debt>, onSubmitResult: Option<bool>)

  /** `handleSubmit` with `onSubmit` bound to the ledger's `addDebt`. */
  function HandleSubmit(form: FormData, parse: string -> Option<int>, debts: seq<Debt>,
                        id: string, createdAt: int): (r: SubmitStep)
    requires parse(form.totalValue).Some?
    ensures r.onSubmitResult.None? <==> |form.cpf| != MaxDigits
    ensures r.onSubmitResult.None? ==> r.debts == debts
    ensures r.onSubmitResult == Some(false) ==> r.debts == debts
    ensures |form.cpf| == MaxDigits ==>
      (r.onSubmitResult == Some(false) <==> HasKey(debts, form.cpf, form.month))
    ensures r.onSubmitResult == Some(true) ==>
      && |r.debts| == |debts| + 1 && r.debts[..|debts|] == debts
      && BuiltFrom(r.debts[|debts|], PrepareInput(form, parse).value, id, createdAt)
      && (r.debts[|debts|].status == Quitada <==>
            r.debts[|debts|].paidValue >= r.debts[|debts|].totalValue)
    ensures r.form == (if r.onSubmitResult == Some(true) then EmptyForm else form)
  {
    match PrepareInput(form, parse)
    case None => SubmitStep(form, debts, None)
    case Some(input) =>
      var out := AddDebt(debts, input, id, createdAt);
      SubmitStep(if out.accepted then EmptyForm else form, out.debts, Some(out.accepted))
  }

  /** Every cpf in the ledger is 11 digits. */
  predicate CpfsWellFormed(debts: seq<Debt>) {
    forall d :: d in debts ==> AllDigits(d.cpf) && |d.cpf| == MaxDigits
  }

  /** When the cpf field was last set through its change handler, whatever
      the form submits keeps every cpf of the ledger at 11 digits. */
  lemma SubmittedCpfWellFormed(form: FormData, raw: string, parse: string -> Option<int>,
                               debts: seq<Debt>, id: string, createdAt: int)
    requires parse(form.totalValue).Some?
    requires CpfsWellFormed(debts)
    ensures CpfsWellFormed(HandleSubmit(OnCpfChange(form, raw), parse, debts, id, createdAt).debts)
  {
  }
}

=== FILE: ledger.dfy ===
/** The ledger store of `components/dashboard.tsx`: creating a debt
    (`addDebt`), recording a payment (`updatePayment`) and deleting every
    debt of a customer (`deleteDebtsByCpf`, `handleDeleteClick` and the
    delete dialog's input handling). The store is the sequence of debts in
    insertion order; every operation returns the next sequence. */
module Ledger {
  import opened Wrappers
  import opened Seqs
  import opened Text
  import opened DebtModel

  /** Some debt is already recorded for `cpf` in `month`. */
  predicate HasKey(debts: seq<Debt>, cpf: string, month: string) {
    exists i :: 0 <= i < |debts| && debts[i].cpf == cpf && debts[i].month == month
  }

  /** No debt of the ledger carries `id`. */
  predicate IdFresh(debts: seq<Debt>, id: string) {
    forall i :: 0 <= i < |debts| ==> debts[i].id != id
  }

  /** The record `d` is recorded for `cpf` in `month`. */
  predicate IsKey(d: Debt, cpf: string, month: string) {
    d.cpf == cpf && d.month == month
  }

  /** No debt before position `i` is recorded for `cpf` in `month`. */
  predicate NoKeyBefore(debts: seq<Debt>, i: nat, cpf: string, month: string)
    requires i <= |debts|
  {
    forall j :: 0 <= j < i ==> !IsKey(debts[j], cpf, month)
  }

  /** `debts.find(...)`: the first debt recorded for `cpf` in `month`. */
  function FindByKey(debts: seq<Debt>, cpf: string, month: string): (r: Option<Debt>)
    ensures r.Some? <==> HasKey(debts, cpf, month)
    ensures r.Some? ==> r.value.cpf == cpf && r.value.month == month
    ensures r.Some? ==> exists i :: 0 <= i < |debts| && debts[i] == r.value && NoKeyBefore(debts, i, cpf, month)
  {
    if |debts| == 0 then None
    else if IsKey(debts[0], cpf, month) then Some(debts[0])
    else
      var r := FindByKey(debts[1..], cpf, month);
      assert HasKey(debts[1..], cpf, month) ==> HasKey(debts, cpf, month) by {
        if HasKey(debts[1..], cpf, month) {
          var i :| 0 <= i < |debts| - 1 && debts[1..][i].cpf == cpf && debts[1..][i].month == month;
          assert debts[i + 1] == debts[1..][i];
        }
      }
      assert HasKey(debts, cpf, month) ==> HasKey(debts[1..], cpf, month) by {
        if HasKey(debts, cpf, month) {
          var i :| 0 <= i < |debts| && debts[i].cpf == cpf && debts[i].month == month;
          assert i > 0 && debts[1..][i - 1] == debts[i];
        }
      }
      assert r.Some? ==> exists i :: 0 <= i < |debts| && debts[i] == r.value && NoKeyBefore(debts, i, cpf, month) by {
        if r.Some? {
          var k :| 0 <= k < |debts| - 1 && debts[1..][k] == r.value && NoKeyBefore(debts[1..], k, cpf, month);
          assert debts[k + 1] == r.value;
          forall j | 0 <= j < k + 1
            ensures !IsKey(debts[j], cpf, month)
          {
            if j > 0 {
              assert debts[j] == debts[1..][j - 1];
            }
          }
        }
      }
      r
  }

  /** What appending `debt` to the ledger keeps: the key and id invariants
      when the new record clashes with no earlier one, and the payment
      bound exactly when the new record respects it. */
  lemma AppendKeepsInvariants(debts: seq<Debt>, debt: Debt)
    ensures UniqueKeys(debts) && !HasKey(debts, debt.cpf, debt.month) ==> UniqueKeys(debts + [debt])
    ensures UniqueIds(debts) && IdFresh(debts, debt.id) ==> UniqueIds(debts + [debt])
    ensures AllConsistent(debts) && StatusConsistent(debt) ==> AllConsistent(debts + [debt])
    ensures AllWithinBounds(debts) ==> (AllWithinBounds(debts + [debt]) <==> WithinBounds(debt))
  {
  }

  /** Outcome of `addDebt`: whether it accepted the input (its boolean
      result) and the resulting ledger. */
  datatype AddOutcome = AddOutcome(accepted: bool, debts: seq<Debt>)

  /** `d` is the record built from `input` with the given `id` and
      `createdAt`: every field but `status` comes from them. */
  predicate BuiltFrom(d: Debt, input: DebtInput, id: string, createdAt: int) {
    && d.id == id && d.name == input.name && d.cpf == input.cpf
    && d.phone == input.phone && d.totalValue == input.totalValue
    && d.paidValue == input.paidValue && d.month == input.month
    && d.observation == input.observation && d.createdAt == createdAt
  }

  /** `addDebt`: refuses an input whose (cpf, month) is already recorded,
      otherwise appends the new record with its derived status. The fresh
      `id` and the creation time are supplied by the caller (the source
      takes them from the clock). The amounts are not checked against each
      other here. */
  function AddDebt(debts: seq<Debt>, input: DebtInput, id: string, createdAt: int): (r: AddOutcome)
    ensures !r.accepted <==> HasKey(debts, input.cpf, input.month)
    ensures !r.accepted ==> r.debts == debts
    ensures r.accepted ==> |r.debts| == |debts| + 1 && r.debts[..|debts|] == debts
    ensures r.accepted ==> BuiltFrom(r.debts[|debts|], input, id, createdAt)
    ensures r.accepted ==> (r.debts[|debts|].status == Quitada <==> input.paidValue >= input.totalValue)
    ensures UniqueKeys(debts) ==> UniqueKeys(r.debts)
    ensures AllConsistent(debts) ==> AllConsistent(r.debts)
    ensures UniqueIds(debts) && IdFresh(debts, id) ==> UniqueIds(r.debts)
    ensures r.accepted && AllWithinBounds(debts) ==>
      (AllWithinBounds(r.debts) <==> 0 <= input.paidValue <= input.totalValue)
  {
    if FindByKey(debts, input.cpf, input.month).Some? then AddOutcome(false, debts)
    else
      var debt := Debt(id, input.name, input.cpf, input.phone, input.totalValue,
                       input.paidValue, input.month, input.observation,
                       StatusFor(input.paidValue, input.totalValue), createdAt);
      AppendKeepsInvariants(debts, debt);
      AddOutcome(true, debts + [debt])
  }

  /** The record after a payment: `newPaidValue` replaces `paidValue` and the
      status is recomputed; every other field is kept. */
  function WithPayment(d: Debt, newPaidValue: int): Debt {
    d.(paidValue := newPaidValue, status := StatusFor(newPaidValue, d.totalValue))
  }

  /** `after` differs from `before` at most in `paidValue` and `status`. */
  predicate SameExceptPayment(before: Debt, after: Debt) {
    after == before.(paidValue := after.paidValue, status := after.status)
  }

  /** `updatePayment`: maps over the ledger, applying the payment to every
      record whose id matches. It checks neither the bound nor the id: an
      unknown id leaves the ledger as it was and reports nothing. */
  function UpdatePayment(debts: seq<Debt>, id: string, newPaidValue: int): (r: seq<Debt>)
    ensures |r| == |debts|
    ensures forall i :: 0 <= i < |debts| && debts[i].id != id ==> r[i] == debts[i]
    ensures forall i :: 0 <= i < |debts| && debts[i].id == id ==>
      && SameExceptPayment(debts[i], r[i])
      && r[i].paidValue == newPaidValue
      && (r[i].status == Quitada <==> newPaidValue >= debts[i].totalValue)
    ensures IdFresh(debts, id) ==> r == debts
  {
    seq(|debts|, i requires 0 <= i < |debts| =>
      if debts[i].id == id then WithPayment(debts[i], newPaidValue) else debts[i])
  }

  /** A payment keeps the ledger invariant: keys and ids are untouched and
      the status of the updated record is recomputed. */
  lemma UpdatePaymentKeepsValid(debts: seq<Debt>, id: string, newPaidValue: int)
    requires Valid(debts)
    ensures Valid(UpdatePayment(debts, id, newPaidValue))
  {
  }

  /** Selects the records of customer `cpf`. */
  function OfCustomer(cpf: string): Debt -> bool {
    (d: Debt) => d.cpf == cpf
  }

  /** Selects the records of every other customer. */
  function NotOfCustomer(cpf: string): Debt -> bool {
    (d: Debt) => d.cpf != cpf
  }

  /** A ledger obtained by deleting records keeps the invariant and the
      payment bound. */
  lemma SubsequenceKeepsInvariants(a: seq<Debt>, b: seq<Debt>)
    requires IsSubsequence(a, b)
    ensures Valid(b) ==> Valid(a)
    ensures AllWithinBounds(b) ==> AllWithinBounds(a)
  {
    SubsequenceMembers(a, b);
    if Valid(b) {
      SubsequencePairwise(a, b, DistinctKeys);
      SubsequencePairwise(a, b, DistinctIds);
    }
  }

  /** `deleteDebtsByCpf`: keeps exactly the records of other customers, in
      their original order, whatever their month or status. */
  function DeleteDebtsByCpf(debts: seq<Debt>, cpf: string): (r: seq<Debt>)
    ensures forall d :: d in r <==> d in debts && d.cpf != cpf
    ensures IsSubsequence(r, debts)
    ensures |debts| - |r| == Count(debts, OfCustomer(cpf))
    ensures Valid(debts) ==> Valid(r)
    ensures AllWithinBounds(debts) ==> AllWithinBounds(r)
  {
    var r := Filter(debts, NotOfCustomer(cpf));
    CountPartition(debts, NotOfCustomer(cpf), OfCustomer(cpf));
    SubsequenceKeepsInvariants(r, debts);
    r
  }

  /** Deleting a customer twice removes nothing the second time. */
  lemma DeleteIdempotent(debts: seq<Debt>, cpf: string)
    ensures DeleteDebtsByCpf(DeleteDebtsByCpf(debts, cpf), cpf) == DeleteDebtsByCpf(debts, cpf)
  {
    FilterIdempotent(debts, NotOfCustomer(cpf));
  }

  /** `handleDeleteClick`: deletes the customer entered in the dialog, and
      does nothing while the field is empty. */
  function HandleDeleteClick(debts: seq<Debt>, deleteConfirm: string): (r: seq<Debt>)
    ensures deleteConfirm == "" ==> r == debts
    ensures forall d :: d in r <==> d in debts && (deleteConfirm == "" || d.cpf != deleteConfirm)
    ensures IsSubsequence(r, debts)
    ensures deleteConfirm != "" ==> |debts| - |r| == Count(debts, OfCustomer(deleteConfirm))
  {
    SubsequenceReflexive(debts);
    if deleteConfirm != "" then DeleteDebtsByCpf(debts, deleteConfirm) else debts
  }

  /** The delete button is enabled only for an 11-character value. */
  predicate DeleteEnabled(deleteConfirm: string) {
    |deleteConfirm| == MaxDigits
  }

  /** Pressing the delete button: nothing happens while it is disabled. */
  function ConfirmDelete(debts: seq<Debt>, deleteConfirm: string): (r: seq<Debt>)
    ensures !DeleteEnabled(deleteConfirm) ==> r == debts
    ensures DeleteEnabled(deleteConfirm) ==> forall d :: d in r <==> d in debts && d.cpf != deleteConfirm
    ensures DeleteEnabled(deleteConfirm) ==> |debts| - |r| == Count(debts, OfCustomer(deleteConfirm))
    ensures IsSubsequence(r, debts)
    ensures forall d :: d in debts && d !in r ==> d.cpf == deleteConfirm && |d.cpf| == MaxDigits
  {
    SubsequenceReflexive(debts);
    if DeleteEnabled(deleteConfirm) then HandleDeleteClick(debts, deleteConfirm) else debts
  }

  /** Whatever text the delete field receives in one change event, a
      record the dialog removes has an 11-digit cpf, and every record of
      that customer is removed. */
  lemma DeleteDialogRemovesOneCustomer(debts: seq<Debt>, raw: string)
    ensures var confirm := FieldValue(raw, MaxDigits);
      var r := ConfirmDelete(debts, confirm);
      && (forall d :: d in debts && d !in r ==> AllDigits(d.cpf) && |d.cpf| == MaxDigits)
      && (DeleteEnabled(confirm) ==> forall d :: d in debts && d.cpf == confirm ==> d !in r)
  {
  }

  /** A second creation for the same (cpf, month) is refused and leaves the
      ledger as the first one left it, whether or not the first succeeded. */
  lemma SecondAddSameKeyRefused(debts: seq<Debt>, first: DebtInput, second: DebtInput,
                                id1: string, id2: string, t1: int, t2: int)
    requires first.cpf == second.cpf && first.month == second.month
    ensures var r1 := AddDebt(debts, first, id1, t1);
      AddDebt(r1.debts, second, id2, t2) == AddOutcome(false, r1.debts)
  {
  }
}

=== FILE: payment.dfy ===
/** The payment dialog of `components/payment-dialog.tsx`: it turns what the
    user typed or clicked into the absolute paid total handed to the
    ledger's `updatePayment`, and it is the only place where the bound
    `paidValue <= totalValue` is checked. */
module Payment {
  import opened Wrappers
  import opened Seqs
  import opened DebtModel
  import opened Ledger

  /** `isAdditional`: add the amount to what is already paid, or set the
      paid total to the amount. */
  datatype Mode = Additional | SetTotal

  /** The paid total a payment of `amount` asks for in `mode`. */
  function ProposedPaid(d: Debt, mode: Mode, amount: int): int {
    match mode
    case Additional => d.paidValue + amount
    case SetTotal => amount
  }

  /** What `handleSubmit` does: reject the amount ("Digite um valor
      válido!"), reject the resulting total ("O valor pago não pode ser
      maior ..."), or call `onUpdatePayment` with a new paid total. */
  datatype Submission = InvalidAmount | ExceedsTotal | Pay(newPaidValue: int)

  /** `handleSubmit` for the debt `d` shown in the dialog; `amount` is the
      typed field after `Number.parseFloat`, `None` standing for `NaN`. */
  function HandleSubmit(d: Debt, mode: Mode, amount: Option<int>): (r: Submission)
    ensures r.InvalidAmount? <==> amount.None? || amount.value <= 0
    ensures r.ExceedsTotal? <==>
      amount.Some? && amount.value > 0 && ProposedPaid(d, mode, amount.value) > d.totalValue
    ensures r.Pay? ==> r.newPaidValue <= d.totalValue
    ensures r.Pay? && mode == Additional ==> r.newPaidValue == d.paidValue + amount.value
    ensures r.Pay? && mode == SetTotal ==> r.newPaidValue == amount.value
    ensures r.Pay? && 0 <= d.paidValue ==> 0 < r.newPaidValue
  {
    if amount.None? || amount.value <= 0 then InvalidAmount
    else
      var newPaidValue := if mode == Additional then d.paidValue + amount.value else amount.value;
      if newPaidValue > d.totalValue then ExceedsTotal else Pay(newPaidValue)
  }

  /** `handleQuickPay`: the new paid total passed to `onUpdatePayment`, or
      `None` when the call is skipped because it would exceed the total. */
  function HandleQuickPay(d: Debt, mode: Mode, amount: int): (r: Option<int>)
    ensures r.Some? <==> ProposedPaid(d, mode, amount) <= d.totalValue
    ensures r.Some? ==> r.value <= d.totalValue
    ensures r.Some? && mode == Additional ==> r.value == d.paidValue + amount
    ensures r.Some? && mode == SetTotal ==> r.value == amount
  {
    if mode == Additional then
      var newTotal := d.paidValue + amount;
      if newTotal <= d.totalValue then Some(newTotal) else None
    else
      if amount <= d.totalValue then Some(amount) else None
  }

  /** The fixed quick-pay amounts R$ 10, 20 and 50, in cents. */
  const QuickAmounts: seq<int> := [1000, 2000, 5000]

  /** The fixed amounts a remainder of `remaining` reaches. */
  function Reached(remaining: int): int -> bool {
    (a: int) => a <= remaining
  }

  /** The quick-pay buttons the dialog shows, by the amount each passes to
      `handleQuickPay`: in additive mode with something left to pay, each
      fixed amount that does not exceed the remainder, then the "Quitar"
      button for the whole remainder; otherwise none. */
  function QuickPayButtons(d: Debt, mode: Mode): (r: seq<int>)
    ensures r != [] <==> mode == Additional && Remaining(d) > 0
    ensures forall a :: a in r ==> 0 < a <= Remaining(d)
    ensures r != [] ==> r[|r| - 1] == Remaining(d)
    ensures forall a :: a in r ==> a in QuickAmounts || a == Remaining(d)
    ensures forall i, j :: 0 <= i < j < |r| ==> r[i] <= r[j]
    ensures forall i, j :: 0 <= i < j < |r| - 1 ==> r[i] < r[j]
    ensures forall k :: 0 <= k < |QuickAmounts| ==>
      (QuickAmounts[k] in r <==> mode == Additional && Remaining(d) >= QuickAmounts[k])
  {
    var remaining := Remaining(d);
    if mode == Additional && remaining > 0 then
      (if remaining >= 1000 then [1000] else [])
      + (if remaining >= 2000 then [2000] else [])
      + (if remaining >= 5000 then [5000] else [])
      + [remaining]
    else []
  }

  /** The buttons before "Quitar" are exactly the fixed amounts the
      remainder reaches, in the order of `QuickAmounts`. */
  lemma QuickPayFixedButtons(d: Debt, mode: Mode)
    ensures var r := QuickPayButtons(d, mode);
      r != [] ==> r[..|r| - 1] == Filter(QuickAmounts, Reached(Remaining(d)))
  {
  }

  /** Every visible quick-pay button passes the bound check and raises the
      paid total by its amount. */
  lemma VisibleQuickPayAccepted(d: Debt, mode: Mode, amount: int)
    requires amount in QuickPayButtons(d, mode)
    ensures HandleQuickPay(d, mode, amount) == Some(d.paidValue + amount)
    ensures d.paidValue < d.paidValue + amount <= d.totalValue
  {
  }

  /** The dialog's call `onUpdatePayment(debt.id, v)` on the ledger, when
      it makes one. */
  function Commit(debts: seq<Debt>, d: Debt, newPaidValue: Option<int>): (r: seq<Debt>)
    ensures |r| == |debts|
    ensures newPaidValue.None? ==> r == debts
    ensures newPaidValue.Some? ==> Paid(debts, r, d.id, newPaidValue.value)
  {
    match newPaidValue
    case Some(v) => UpdatePayment(debts, d.id, v)
    case None => debts
  }

  /** `after` is `before` with the paid total of the records carrying `id`
      set to `v` and their status recomputed; nothing else changes. */
  predicate Paid(before: seq<Debt>, after: seq<Debt>, id: string, v: int) {
    && |after| == |before|
    && (forall i :: 0 <= i < |before| && before[i].id != id ==> after[i] == before[i])
    && (forall i :: 0 <= i < |before| && before[i].id == id ==>
          && SameExceptPayment(before[i], after[i])
          && after[i].paidValue == v
          && (after[i].status == Quitada <==> v >= before[i].totalValue))
  }

  /** A submitted form, applied to the ledger. */
  function SubmitToLedger(debts: seq<Debt>, d: Debt, mode: Mode, amount: Option<int>): (r: seq<Debt>)
    ensures !HandleSubmit(d, mode, amount).Pay? ==> r == debts
    ensures HandleSubmit(d, mode, amount).Pay? ==>
      Paid(debts, r, d.id, HandleSubmit(d, mode, amount).newPaidValue)
  {
    match HandleSubmit(d, mode, amount)
    case Pay(v) => Commit(debts, d, Some(v))
    case _ => debts
  }

  /** A quick-pay click, applied to the ledger. */
  function QuickPayToLedger(debts: seq<Debt>, d: Debt, mode: Mode, amount: int): (r: seq<Debt>)
    ensures HandleQuickPay(d, mode, amount).None? ==> r == debts
    ensures HandleQuickPay(d, mode, amount).Some? ==>
      Paid(debts, r, d.id, HandleQuickPay(d, mode, amount).value)
  {
    Commit(debts, d, HandleQuickPay(d, mode, amount))
  }

  /** Setting the paid total of the dialog's debt to a value in
      `[0, totalValue]` keeps every record of the ledger within bounds. The
      dialog's debt is a record of the ledger, and ids are unique, so the
      total the dialog checks against is the ledger's own. */
  lemma PaymentWithinBounds(debts: seq<Debt>, d: Debt, v: int)
    requires d in debts && UniqueIds(debts) && AllWithinBounds(debts)
    requires 0 <= v <= d.totalValue
    ensures AllWithinBounds(UpdatePayment(debts, d.id, v))
  {
  }

  /** Every successful submission keeps the payment bound, in both modes. */
  lemma SubmitKeepsBounds(debts: seq<Debt>, d: Debt, mode: Mode, amount: Option<int>)
    requires d in debts && UniqueIds(debts) && AllWithinBounds(debts)
    ensures AllWithinBounds(SubmitToLedger(debts, d, mode, amount))
  {
  }

  /** Every visible quick-pay button keeps the payment bound. */
  lemma QuickPayKeepsBounds(debts: seq<Debt>, d: Debt, mode: Mode, amount: int)
    requires d in debts && UniqueIds(debts) && AllWithinBounds(debts)
    requires amount in QuickPayButtons(d, mode)
    ensures AllWithinBounds(QuickPayToLedger(debts, d, mode, amount))
  {
  }

  /** "Quitar" pays exactly the remainder: the paid total becomes the debt's
      total and, through `updatePayment`, its record becomes QUITADA. */
  lemma PayOffSettles(debts: seq<Debt>, d: Debt)
    requires d in debts && UniqueIds(debts)
    ensures HandleQuickPay(d, Additional, Remaining(d)) == Some(d.totalValue)
    ensures var r := QuickPayToLedger(debts, d, Additional, Remaining(d));
      forall i :: 0 <= i < |debts| && debts[i].id == d.id ==>
        r[i].paidValue == r[i].totalValue && r[i].status == Quitada
  {
  }
}

=== FILE: query.dfy ===
/** The dashboard's derived view of `components/dashboard.tsx`: the filter
    effect (cpf substring, month, status) and the aggregate counts and sums
    shown in the stat cards and reused by the report. */
module Query {
  import opened Seqs
  import opened DebtModel

  /** `sub` occurs in `s` starting at position `i`. */
  predicate OccursAt(s: string, sub: string, i: nat) {
    i + |sub| <= |s| && s[i..i + |sub|] == sub
  }

  /** `s.includes(sub)`: substring containment (not prefix, not equality). */
  function Contains(s: string, sub: string): (r: bool)
    ensures r <==> exists i: nat :: OccursAt(s, sub, i)
    decreases |s|
  {
    if |sub| > |s| then false
    else if s[..|sub|] == sub then
      assert OccursAt(s, sub, 0);
      true
    else
      var r := Contains(s[1..], sub);
      assert forall i: nat :: OccursAt(s[1..], sub, i) <==> OccursAt(s, sub, i + 1) by {
        forall i: nat ensures OccursAt(s[1..], sub, i) <==> OccursAt(s, sub, i + 1) {
          if i + 1 + |sub| <= |s| {
            assert s[1..][i..i + |sub|] == s[i + 1..i + 1 + |sub|];
          }
        }
      }
      assert !OccursAt(s, sub, 0);
      assert (exists i: nat :: OccursAt(s, sub, i)) ==> exists i: nat :: OccursAt(s[1..], sub, i) by {
        if exists i: nat :: OccursAt(s, sub, i) {
          var i: nat :| OccursAt(s, sub, i);
          assert i > 0;
          assert OccursAt(s[1..], sub, i - 1);
        }
      }
      r
  }

  /** The month selector: `"all"` or one month token. The selector's
      items never offer a month named "all", so `InMonth("all")` is not
      produced by `MonthSelection`. */
  datatype MonthFilter = AllMonths | InMonth(month: string)

  /** The selector's string value read as a filter: the literal `"all"`
      means no month filter (`filterMonth !== "all"`). */
  function MonthSelection(value: string): (m: MonthFilter)
    ensures m.AllMonths? <==> value == "all"
    ensures m.InMonth? ==> m.month == value
  {
    if value == "all" then AllMonths else InMonth(value)
  }

  /** The status selector: `"all"` or one status. */
  datatype StatusFilter = AllStatuses | WithStatus(status: Status)

  /** The three filter inputs of the dashboard. */
  datatype Filters = Filters(searchCpf: string, month: MonthFilter, status: StatusFilter)

  /** `clearFilters`: empty search, every month, every status. */
  const NoFilters: Filters := Filters("", AllMonths, AllStatuses)

  predicate CpfMatches(searchCpf: string, d: Debt) {
    searchCpf == "" || Contains(d.cpf, searchCpf)
  }

  predicate MonthMatches(m: MonthFilter, d: Debt) {
    m.AllMonths? || d.month == m.month
  }

  predicate StatusMatches(st: StatusFilter, d: Debt) {
    st.AllStatuses? || d.status == st.status
  }

  /** A record passes the filters when it passes all three of them; an
      empty search and the `"all"` selectors constrain nothing. */
  predicate Matches(f: Filters, d: Debt) {
    CpfMatches(f.searchCpf, d) && MonthMatches(f.month, d) && StatusMatches(f.status, d)
  }

  function CpfFilter(searchCpf: string): Debt -> bool {
    (d: Debt) => Contains(d.cpf, searchCpf)
  }

  function MonthFilterFn(month: string): Debt -> bool {
    (d: Debt) => d.month == month
  }

  function StatusFilterFn(status: Status): Debt -> bool {
    (d: Debt) => d.status == status
  }

  function MatchesFn(f: Filters): Debt -> bool {
    (d: Debt) => Matches(f, d)
  }

  /** The filter effect as the source writes it: up to three filters
      applied one after another, each only when its input is set. */
  function ApplyFilters(debts: seq<Debt>, f: Filters): (r: seq<Debt>)
    ensures forall d :: d in r <==> d in debts && Matches(f, d)
    ensures IsSubsequence(r, debts)
    ensures |r| == Count(debts, MatchesFn(f))
  {
    var byCpf := if f.searchCpf != "" then Filter(debts, CpfFilter(f.searchCpf)) else debts;
    var byMonth := if !f.month.AllMonths? then Filter(byCpf, MonthFilterFn(f.month.month)) else byCpf;
    var byStatus := if !f.status.AllStatuses? then Filter(byMonth, StatusFilterFn(f.status.status)) else byMonth;
    FiltersConjunctive(debts, f, byCpf, byMonth, byStatus);
    byStatus
  }

  function CpfStage(f: Filters): Debt -> bool {
    (d: Debt) => CpfMatches(f.searchCpf, d)
  }

  function MonthStage(f: Filters): Debt -> bool {
    (d: Debt) => MonthMatches(f.month, d)
  }

  function StatusStage(f: Filters): Debt -> bool {
    (d: Debt) => StatusMatches(f.status, d)
  }

  /** A filter step that runs only when `on` holds is the filter by the
      predicate "not `on`, or `p`". */
  lemma GuardedStep(s: seq<Debt>, on: bool, p: Debt -> bool, q: Debt -> bool)
    requires forall i :: 0 <= i < |s| ==> q(s[i]) == (!on || p(s[i]))
    ensures (if on then Filter(s, p) else s) == Filter(s, q)
  {
    if on {
      FilterCongruent(s, p, q);
    } else {
      FilterKeepsAll(s, q);
    }
  }

  /** The cpf step of the effect is the filter by `CpfStage`. */
  lemma {:induction false} CpfStep(s: seq<Debt>, f: Filters)
    ensures (if f.searchCpf != "" then Filter(s, CpfFilter(f.searchCpf)) else s) == Filter(s, CpfStage(f))
  {
    GuardedStep(s, f.searchCpf != "", CpfFilter(f.searchCpf), CpfStage(f));
  }

  /** The month step of the effect is the filter by `MonthStage`. */
  lemma {:induction false} MonthStep(s: seq<Debt>, f: Filters)
    ensures (if !f.month.AllMonths? then Filter(s, MonthFilterFn(f.month.month)) else s) == Filter(s, MonthStage(f))
  {
    if f.month.InMonth? {
      GuardedStep(s, true, MonthFilterFn(f.month.month), MonthStage(f));
    } else {
      FilterKeepsAll(s, MonthStage(f));
    }
  }

  /** The status step of the effect is the filter by `StatusStage`. */
  lemma {:induction false} StatusStep(s: seq<Debt>, f: Filters)
    ensures (if !f.status.AllStatuses? then Filter(s, StatusFilterFn(f.status.status)) else s) == Filter(s, StatusStage(f))
  {
    if f.status.WithStatus? {
      GuardedStep(s, true, StatusFilterFn(f.status.status), StatusStage(f));
    } else {
      FilterKeepsAll(s, StatusStage(f));
    }
  }

  /** The three stages in sequence filter by their conjunction. */
  lemma {:induction false} ThreeStages(debts: seq<Debt>, f: Filters)
    ensures Filter(Filter(Filter(debts, CpfStage(f)), MonthStage(f)), StatusStage(f)) == Filter(debts, MatchesFn(f))
  {
    FilterBoth(debts, CpfStage(f), MonthStage(f));
    FilterBoth(debts, Both(CpfStage(f), MonthStage(f)), StatusStage(f));
    FilterCongruent(debts, Both(Both(CpfStage(f), MonthStage(f)), StatusStage(f)), MatchesFn(f));
  }

  /** Applying the three filters in sequence is one conjunctive filter. */
  lemma FiltersConjunctive(debts: seq<Debt>, f: Filters, byCpf: seq<Debt>, byMonth: seq<Debt>, byStatus: seq<Debt>)
    requires byCpf == if f.searchCpf != "" then Filter(debts, CpfFilter(f.searchCpf)) else debts
    requires byMonth == if !f.month.AllMonths? then Filter(byCpf, MonthFilterFn(f.month.month)) else byCpf
    requires byStatus == if !f.status.AllStatuses? then Filter(byMonth, StatusFilterFn(f.status.status)) else byMonth
    ensures byStatus == Filter(debts, MatchesFn(f))
  {
    CpfStep(debts, f);
    MonthStep(byCpf, f);
    StatusStep(byMonth, f);
    ThreeStages(debts, f);
  }

  /** Filtering by month and then by status gives the view selected by both
      at once. */
  lemma MonthThenStatus(debts: seq<Debt>, month: string, status: Status)
    ensures ApplyFilters(ApplyFilters(debts, Filters("", InMonth(month), AllStatuses)),
                         Filters("", AllMonths, WithStatus(status)))
         == ApplyFilters(debts, Filters("", InMonth(month), WithStatus(status)))
  {
  }

  /** With the filters cleared the view is the whole ledger. */
  lemma ClearedFiltersShowAll(debts: seq<Debt>)
    ensures ApplyFilters(debts, NoFilters) == debts
  {
  }

  /** `reduce((sum, debt) => sum + debt.totalValue, 0)`; integer addition
      makes the fold direction irrelevant. */
  function SumTotal(debts: seq<Debt>): int {
    if |debts| == 0 then 0 else debts[0].totalValue + SumTotal(debts[1..])
  }

  /** `reduce((sum, debt) => sum + debt.paidValue, 0)`. */
  function SumPaid(debts: seq<Debt>): int {
    if |debts| == 0 then 0 else debts[0].paidValue + SumPaid(debts[1..])
  }

  /** Sum of what each debt still owes, record by record. */
  function SumRemaining(debts: seq<Debt>): int {
    if |debts| == 0 then 0 else Remaining(debts[0]) + SumRemaining(debts[1..])
  }

  /** The aggregate outstanding amount is the sum of the per-debt remainders;
      under the payment bound it lies between 0 and the total. */
  lemma {:induction false} SumsAgree(debts: seq<Debt>)
    ensures SumTotal(debts) - SumPaid(debts) == SumRemaining(debts)
    ensures AllWithinBounds(debts) ==>
      0 <= SumPaid(debts) && 0 <= SumRemaining(debts) <= SumTotal(debts)
  {
    if |debts| > 0 {
      SumsAgree(debts[1..]);
      assert debts[0] in debts;
      assert AllWithinBounds(debts) ==> AllWithinBounds(debts[1..]) by {
        assert forall d :: d in debts[1..] ==> d in debts;
      }
    }
  }

  function IsPending(): Debt -> bool {
    (d: Debt) => d.status == Pendente
  }

  function IsSettled(): Debt -> bool {
    (d: Debt) => d.status == Quitada
  }

  function Underpaid(): Debt -> bool {
    (d: Debt) => d.paidValue < d.totalValue
  }

  /** The aggregates of a view. */
  datatype Summary = Summary(
    count: nat,
    pending: nat,
    settled: nat,
    totalValue: int,
    received: int,
    outstanding: int)

  /** The counts and sums of the stat cards and of the report's summary
      block: number of debts, number pending, number settled, sum of
      totals, sum received, and their difference. */
  function Summarize(debts: seq<Debt>): (s: Summary)
    ensures s.count == |debts|
    ensures s.pending == Count(debts, IsPending())
    ensures s.settled == Count(debts, IsSettled())
    ensures s.pending + s.settled == s.count
    ensures AllConsistent(debts) ==> s.pending == Count(debts, Underpaid())
    ensures s.totalValue == SumTotal(debts) && s.received == SumPaid(debts)
    ensures s.outstanding == s.totalValue - s.received
    ensures s.outstanding == SumRemaining(debts)
    ensures AllWithinBounds(debts) ==> 0 <= s.received && 0 <= s.outstanding <= s.totalValue
    ensures |debts| == 0 ==> s == Summary(0, 0, 0, 0, 0, 0)
  {
    CountPartition(debts, IsPending(), IsSettled());
    SumsAgree(debts);
    PendingAreUnderpaid(debts);
    Summary(|debts|, |Filter(debts, IsPending())|, |Filter(debts, IsSettled())|,
            SumTotal(debts), SumPaid(debts), SumTotal(debts) - SumPaid(debts))
  }

  /** With consistent statuses, the pending debts are the underpaid ones. */
  lemma PendingAreUnderpaid(debts: seq<Debt>)
    ensures AllConsistent(debts) ==> Count(debts, IsPending()) == Count(debts, Underpaid())
  {
    if AllConsistent(debts) {
      assert forall i :: 0 <= i < |debts| ==> debts[i] in debts;
      FilterCongruent(debts, IsPending(), Underpaid());
    }
  }

  /** The "Pendentes" and "Quitadas" cards of a view count exactly the
      debts the view shows once its status selector is set to that status. */
  lemma StatusCardsMatchStatusFilter(debts: seq<Debt>, searchCpf: string, month: MonthFilter)
    ensures var view := ApplyFilters(debts, Filters(searchCpf, month, AllStatuses));
      && Summarize(view).pending == |ApplyFilters(debts, Filters(searchCpf, month, WithStatus(Pendente)))|
      && Summarize(view).settled == |ApplyFilters(debts, Filters(searchCpf, month, WithStatus(Quitada)))|
  {
  }
}

=== FILE: report.dfy ===
/** `generateReport` of `components/report-dialog.tsx`: a header with the
    generation time, a 60-character rule, the summary block, a second rule,
    then one numbered detail block per debt in input order. The text is
    built in two layers: the numbered entries and the summary (what the
    report says), then their rendering (how it is printed). The generation
    time is a parameter, and `toLocaleString("pt-BR")` of a creation time is
    the parameter `formatDate`. */
module Report {
  import opened Wrappers
  import opened Text
  import opened DebtModel
  import opened Query

  /** One detail block: its number and the values it prints. */
  datatype Entry = Entry(
    number: nat,
    name: string,
    cpf: string,
    phone: string,
    month: string,
    totalValue: int,
    paidValue: int,
    remaining: int,
    status: Status,
    observation: Option<string>,
    createdAt: int)

  function EntryOf(d: Debt, number: nat): Entry {
    Entry(number, d.name, d.cpf, d.phone, d.month, d.totalValue, d.paidValue,
          d.totalValue - d.paidValue, d.status,
          if d.observation != "" then Some(d.observation) else None,
          d.createdAt)
  }

  /** `e` prints the fields of `d`, its remaining amount, and its
      observation exactly when that is non-empty. */
  predicate Describes(e: Entry, d: Debt) {
    && e.name == d.name && e.cpf == d.cpf && e.phone == d.phone
    && e.month == d.month && e.totalValue == d.totalValue
    && e.paidValue == d.paidValue && e.remaining == Remaining(d)
    && e.status == d.status && e.createdAt == d.createdAt
    && (e.observation.Some? <==> d.observation != "")
    && (e.observation.Some? ==> e.observation.value == d.observation)
  }

  /** The detail blocks of `debts`, numbered from `start + 1` on
      (`forEach((debt, index) => ...)` with `start` = 0). */
  function Entries(debts: seq<Debt>, start: nat): (r: seq<Entry>)
    ensures |r| == |debts|
    ensures forall i {:trigger r[i]} :: 0 <= i < |debts| ==> r[i].number == start + i + 1 && Describes(r[i], debts[i])
  {
    if |debts| == 0 then [] else [EntryOf(debts[0], start + 1)] + Entries(debts[1..], start + 1)
  }

  /** Numbering continues across a concatenation. */
  lemma EntriesAppend(a: seq<Debt>, b: seq<Debt>, start: nat)
    ensures Entries(a + b, start) == Entries(a, start) + Entries(b, start + |a|)
  {
  }

  /** `"=".repeat(60)`. */
  function Rule(): (r: string)
    ensures |r| == 60
    ensures forall i :: 0 <= i < |r| ==> r[i] == '='
  {
    Repeat('=', 60)
  }

  function Header(generatedAt: string): string {
    "RELATÓRIO DE DÍVIDAS - SISTEMA VENDINHA\n"
    + "Gerado em: " + generatedAt + "\n"
    + Rule() + "\n\n"
  }

  function SummaryText(s: Summary): string {
    "RESUMO GERAL:\n"
    + "Total de Dívidas: " + NatToString(s.count) + "\n"
    + "Dívidas Pendentes: " + NatToString(s.pending) + "\n"
    + "Dívidas Quitadas: " + NatToString(s.settled) + "\n"
    + "Valor Total: R$ " + Fixed2(s.totalValue) + "\n"
    + "Valor Recebido: R$ " + Fixed2(s.received) + "\n"
    + "Valor Pendente: R$ " + Fixed2(s.outstanding) + "\n\n"
  }

  const DetailsHeading: string := "DETALHAMENTO DAS DÍVIDAS:\n\n"

  function ObservationLine(observation: Option<string>): string {
    match observation
    case Some(o) => "   Observação: " + o + "\n"
    case None => ""
  }

  function EntryText(e: Entry, formatDate: int -> string): string {
    NatToString(e.number) + ". " + e.name + "\n"
    + "   CPF: " + e.cpf + "\n"
    + "   Telefone: " + e.phone + "\n"
    + "   Mês: " + e.month + "\n"
    + "   Valor Total: R$ " + Fixed2(e.totalValue) + "\n"
    + "   Valor Pago: R$ " + Fixed2(e.paidValue) + "\n"
    + "   Valor Restante: R$ " + Fixed2(e.remaining) + "\n"
    + "   Status: " + e.status.Token() + "\n"
    + ObservationLine(e.observation)
    + "   Cadastrado em: " + formatDate(e.createdAt) + "\n"
    + "\n"
  }

  /** The printer of one block, with creation times shown by
      `formatDate`. */
  function BlockPrinter(formatDate: int -> string): Entry -> string {
    (e: Entry) => EntryText(e, formatDate)
  }

  /** Everything the report prints before the detail blocks. */
  function ReportHead(generatedAt: string, s: Summary): string {
    Header(generatedAt) + SummaryText(s) + Rule() + "\n\n" + DetailsHeading
  }

  /** `generateReport`. */
  function GenerateReport(debts: seq<Debt>, generatedAt: string, formatDate: int -> string): (r: string)
    ensures ReportHead(generatedAt, Summarize(debts)) <= r
    ensures |debts| == 0 ==> r == ReportHead(generatedAt, Summary(0, 0, 0, 0, 0, 0))
    ensures |debts| > 0 ==>
      EndsWith(r, BlockPrinter(formatDate)(EntryOf(debts[|debts| - 1], |debts|)))
  {
    var entries := Entries(debts, 0);
    assert |debts| > 0 ==> entries[|debts| - 1] == EntryOf(debts[|debts| - 1], |debts|);
    LastBlockCloses(ReportHead(generatedAt, Summarize(debts)), entries, BlockPrinter(formatDate));
    ReportHead(generatedAt, Summarize(debts)) + Concat(entries, BlockPrinter(formatDate))
  }

  /** Whatever precedes the blocks, the text ends with the last block. */
  lemma LastBlockCloses(head: string, entries: seq<Entry>, printer: Entry -> string)
    ensures |entries| > 0 ==> EndsWith(head + Concat(entries, printer), printer(entries[|entries| - 1]))
  {
    if |entries| > 0 {
      ConcatEndsWithLast(entries, printer);
      SuffixOfAppend(head, Concat(entries, printer), printer(entries[|entries| - 1]));
    }
  }

  /** Appending debts appends their blocks, numbered after the existing ones:
      one block per debt, in input order, numbered index + 1. */
  lemma DetailsAppend(a: seq<Debt>, b: seq<Debt>, printer: Entry -> string)
    ensures Concat(Entries(a + b, 0), printer) == Concat(Entries(a, 0), printer) + Concat(Entries(b, |a|), printer)
  {
    EntriesAppend(a, b, 0);
    ConcatAppend(Entries(a, 0), Entries(b, |a|), printer);
  }
}

=== FILE: seqs.dfy ===
/** Order-preserving selection over sequences: the shape shared by every
    list-narrowing step of the ledger (`Array.prototype.filter`), with the
    facts the ledger needs about it. */
module Seqs {

  /** `a` is obtained from `b` by deleting zero or more elements; the
      elements kept stay in their original order. */
  predicate IsSubsequence<T(==)>(a: seq<T>, b: seq<T>)
    decreases |b|
  {
    |a| == 0 ||
    (|b| > 0 && ((a[0] == b[0] && IsSubsequence(a[1..], b[1..])) || IsSubsequence(a, b[1..])))
  }

  /** Every pair of elements, taken in sequence order, is related by `ok`. */
  predicate Pairwise<T>(s: seq<T>, ok: (T, T) -> bool) {
    forall i, j :: 0 <= i < j < |s| ==> ok(s[i], s[j])
  }

  /** Number of elements of `s` that satisfy `p`. */
  function Count<T>(s: seq<T>, p: T -> bool): (n: nat)
    ensures n <= |s|
  {
    if |s| == 0 then 0 else (if p(s[0]) then 1 else 0) + Count(s[1..], p)
  }

  /** The conjunction of two element predicates. */
  function Both<T>(p: T -> bool, q: T -> bool): T -> bool {
    x => p(x) && q(x)
  }

  /** The elements of `s` that satisfy `p`, in their original order. The
      three postconditions together determine the result uniquely (see
      `FilterUnique`). */
  function Filter<T(==,!new)>(s: seq<T>, p: T -> bool): (r: seq<T>)
    ensures forall x :: x in r <==> x in s && p(x)
    ensures |r| == Count(s, p) <= |s|
    ensures IsSubsequence(r, s)
  {
    if |s| == 0 then []
    else if p(s[0]) then [s[0]] + Filter(s[1..], p)
    else Filter(s[1..], p)
  }

  /** Every sequence is a subsequence of itself. */
  lemma {:induction false} SubsequenceReflexive<T>(s: seq<T>)
    ensures IsSubsequence(s, s)
  {
    if |s| > 0 {
      SubsequenceReflexive(s[1..]);
    }
  }

  lemma {:induction false} SubsequenceMembers<T(!new)>(a: seq<T>, b: seq<T>)
    requires IsSubsequence(a, b)
    ensures forall x :: x in a ==> x in b
    decreases |b|
  {
    if |a| == 0 {
    } else if a[0] == b[0] && IsSubsequence(a[1..], b[1..]) {
      SubsequenceMembers(a[1..], b[1..]);
      forall x | x in a ensures x in b {
        if x != a[0] {
          assert x in a[1..];
        }
      }
    } else {
      SubsequenceMembers(a, b[1..]);
    }
  }

  /** A subsequence of `s` satisfying `p` has at most `Count(s, p)` elements. */
  lemma {:induction false} SubsequenceCountBound<T>(a: seq<T>, s: seq<T>, p: T -> bool)
    requires IsSubsequence(a, s)
    requires forall i :: 0 <= i < |a| ==> p(a[i])
    ensures |a| <= Count(s, p)
    decreases |s|
  {
    if |a| == 0 {
    } else if a[0] == s[0] && IsSubsequence(a[1..], s[1..]) {
      SubsequenceCountBound(a[1..], s[1..], p);
    } else {
      SubsequenceCountBound(a, s[1..], p);
    }
  }

  /** Uniqueness: a subsequence of `s` made only of `p`-elements and as long
      as the number of `p`-elements of `s` is exactly `Filter(s, p)`. */
  lemma {:induction false} FilterUnique<T(!new)>(r: seq<T>, s: seq<T>, p: T -> bool)
    requires IsSubsequence(r, s)
    requires forall i :: 0 <= i < |r| ==> p(r[i])
    requires |r| == Count(s, p)
    ensures r == Filter(s, p)
    decreases |s|
  {
    if |s| == 0 {
    } else if p(s[0]) {
      if |r| > 0 && r[0] == s[0] && IsSubsequence(r[1..], s[1..]) {
        FilterUnique(r[1..], s[1..], p);
        assert r == [s[0]] + r[1..];
      } else {
        SubsequenceCountBound(r, s[1..], p);
        assert false;
      }
    } else {
      if |r| > 0 && r[0] == s[0] {
        assert false;
      }
      FilterUnique(r, s[1..], p);
    }
  }

  /** Filtering by `p` and then by `q` is filtering by both at once. */
  lemma {:induction false} FilterBoth<T(!new)>(s: seq<T>, p: T -> bool, q: T -> bool)
    ensures Filter(Filter(s, p), q) == Filter(s, Both(p, q))
  {
    if |s| > 0 {
      FilterBoth(s[1..], p, q);
      if p(s[0]) {
        assert Filter([s[0]] + Filter(s[1..], p), q)
            == (if q(s[0]) then [s[0]] else []) + Filter(Filter(s[1..], p), q)
          by { assert ([s[0]] + Filter(s[1..], p))[1..] == Filter(s[1..], p); }
      }
    }
  }

  /** Filtering twice by the same predicate changes nothing the second time. */
  lemma {:induction false} FilterIdempotent<T(!new)>(s: seq<T>, p: T -> bool)
    ensures Filter(Filter(s, p), p) == Filter(s, p)
  {
    if |s| > 0 {
      FilterIdempotent(s[1..], p);
      if p(s[0]) {
        assert ([s[0]] + Filter(s[1..], p))[1..] == Filter(s[1..], p);
      }
    }
  }

  /** Filtering by a predicate every element satisfies keeps everything. */
  lemma {:induction false} FilterKeepsAll<T(!new)>(s: seq<T>, p: T -> bool)
    requires forall i :: 0 <= i < |s| ==> p(s[i])
    ensures Filter(s, p) == s
  {
    if |s| > 0 {
      FilterKeepsAll(s[1..], p);
      assert s == [s[0]] + s[1..];
    }
  }

  /** Filters by two predicates that agree on every element coincide. */
  lemma {:induction false} FilterCongruent<T(!new)>(s: seq<T>, p: T -> bool, q: T -> bool)
    requires forall i :: 0 <= i < |s| ==> p(s[i]) == q(s[i])
    ensures Filter(s, p) == Filter(s, q)
  {
    if |s| > 0 {
      FilterCongruent(s[1..], p, q);
    }
  }

  /** Filtering distributes over concatenation. */
  lemma {:induction false} FilterAppend<T(!new)>(a: seq<T>, b: seq<T>, p: T -> bool)
    ensures Filter(a + b, p) == Filter(a, p) + Filter(b, p)
  {
    if |a| == 0 {
      assert a + b == b;
    } else {
      FilterAppend(a[1..], b, p);
      assert (a + b)[0] == a[0];
      assert (a + b)[1..] == a[1..] + b;
      var rest := Filter(a[1..], p) + Filter(b, p);
      if p(a[0]) {
        calc {
          Filter(a + b, p);
          [a[0]] + Filter(a[1..] + b, p);
          [a[0]] + rest;
          ([a[0]] + Filter(a[1..], p)) + Filter(b, p);
        }
      }
    }
  }

  /** When `q` holds exactly where `p` fails, the two counts partition `s`. */
  lemma {:induction false} CountPartition<T>(s: seq<T>, p: T -> bool, q: T -> bool)
    requires forall i :: 0 <= i < |s| ==> (q(s[i]) <==> !p(s[i]))
    ensures Count(s, p) + Count(s, q) == |s|
  {
    if |s| > 0 {
      CountPartition(s[1..], p, q);
    }
  }

  /** Deleting elements cannot break a pairwise property. */
  lemma {:induction false} SubsequencePairwise<T(!new)>(a: seq<T>, b: seq<T>, ok: (T, T) -> bool)
    requires IsSubsequence(a, b)
    requires Pairwise(b, ok)
    ensures Pairwise(a, ok)
    decreases |b|
  {
    if |a| == 0 {
    } else {
      assert Pairwise(b[1..], ok) by {
        forall i, j | 0 <= i < j < |b| - 1 ensures ok(b[1..][i], b[1..][j]) {
          assert ok(b[i + 1], b[j + 1]);
        }
      }
      if a[0] == b[0] && IsSubsequence(a[1..], b[1..]) {
        SubsequencePairwise(a[1..], b[1..], ok);
        SubsequenceMembers(a[1..], b[1..]);
        forall i, j | 0 <= i < j < |a| ensures ok(a[i], a[j]) {
          assert a[j] == a[1..][j - 1];
          if i == 0 {
            assert a[j] in b[1..];
            var k :| 0 <= k < |b| - 1 && b[1..][k] == a[j];
            assert ok(b[0], b[k + 1]);
          } else {
            assert a[i] == a[1..][i - 1];
          }
        }
      } else {
        SubsequencePairwise(a, b[1..], ok);
      }
    }
  }
}

=== FILE: text.dfy ===
/** Character-level helpers for the ledger's text fields and for the number
    rendering used in the report: digit stripping (`replace(/\D/g, "")`),
    truncation (`slice(0, n)`), repetition (`repeat`), integer rendering
    (template-literal interpolation of a whole number) and two-decimal money
    rendering (`toFixed(2)`) of amounts held as whole cents. */
module Text {
  import opened Seqs

  predicate IsDigit(c: char) {
    '0' <= c <= '9'
  }

  predicate AllDigits(s: string) {
    forall i :: 0 <= i < |s| ==> IsDigit(s[i])
  }

  /** `s.replace(/\D/g, "")`: the ASCII decimal digits of `s`, in order. */
  function DigitsOf(s: string): (r: string)
    ensures AllDigits(r) && |r| <= |s|
    ensures IsSubsequence(r, s)
    ensures forall i :: 0 <= i < |s| && IsDigit(s[i]) ==> s[i] in r
    ensures |r| == Count(s, IsDigit)
  {
    Filter(s, IsDigit)
  }

  /** Stripping non-digits from a string that has none changes nothing. */
  lemma DigitsOfDigits(s: string)
    requires AllDigits(s)
    ensures DigitsOf(s) == s
  {
    FilterKeepsAll(s, IsDigit);
  }

  /** `s.slice(0, n)`: the first `n` characters, or all of `s` if shorter. */
  function Truncate(s: string, n: nat): (r: string)
    ensures |r| <= n && r <= s
    ensures |s| <= n ==> r == s
    ensures |s| >= n ==> |r| == n
  {
    if |s| <= n then s else s[..n]
  }

  /** The digits of a prefix are a prefix of the digits. */
  lemma DigitsOfPrefix(s: string, n: nat)
    ensures DigitsOf(Truncate(s, n)) <= DigitsOf(s)
  {
    if n < |s| {
      assert s == s[..n] + s[n..];
      FilterAppend(s[..n], s[n..], IsDigit);
    }
  }

  /** A prefix of an all-digit string loses nothing to digit stripping. */
  lemma TruncateDigits(s: string, n: nat)
    ensures AllDigits(s) ==> DigitsOf(Truncate(s, n)) == Truncate(s, n)
  {
    if AllDigits(s) {
      DigitsOfDigits(Truncate(s, n));
    }
  }

  /** What a digits-only input with `maxLength={n}` holds after one change
      event whose text is `raw` (a paste into the empty field, or its
      current digits plus one key): the browser keeps the first `n`
      characters, and the change handler strips the non-digits among them. */
  function FieldValue(raw: string, n: nat): (r: string)
    ensures AllDigits(r) && |r| <= n
    ensures |r| == Count(Truncate(raw, n), IsDigit)
    ensures r <= DigitsOf(raw)
    ensures AllDigits(raw) ==> r == Truncate(raw, n)
  {
    DigitsOfPrefix(raw, n);
    TruncateDigits(raw, n);
    DigitsOf(Truncate(raw, n))
  }

  /** One key pressed in a field that holds `prev`: a digit is appended
      while there is room, anything else leaves the field as it was. So
      non-digits typed one key at a time never use up the length limit. */
  lemma FieldValueKeystroke(prev: string, c: char, n: nat)
    requires AllDigits(prev) && |prev| < n
    ensures FieldValue(prev + [c], n) == prev + (if IsDigit(c) then [c] else [])
  {
    FilterAppend(prev, [c], IsDigit);
    DigitsOfDigits(prev);
    assert [c][1..] == [];
  }

  /** `c.repeat(n)`. */
  function Repeat(c: char, n: nat): (r: string)
    ensures |r| == n
    ensures forall i :: 0 <= i < n ==> r[i] == c
  {
    if n == 0 then "" else [c] + Repeat(c, n - 1)
  }

  function DigitChar(d: nat): (c: char)
    requires d < 10
    ensures IsDigit(c) && DigitValue(c) == d
  {
    (('0' as int) + d) as char
  }

  function DigitValue(c: char): (d: nat)
    requires IsDigit(c)
    ensures d < 10
  {
    (c as int) - ('0' as int)
  }

  /** Decimal rendering of a whole number, as template-literal interpolation
      prints it: no sign, no leading zero unless the number is 0. */
  function NatToString(n: nat): (r: string)
    ensures |r| > 0 && AllDigits(r)
    ensures r[0] == '0' ==> n == 0
    ensures |r| > 1 ==> r[0] != '0'
  {
    if n < 10 then [DigitChar(n)] else NatToString(n / 10) + [DigitChar(n % 10)]
  }

  /** The value of a string of decimal digits (0 for the empty string). */
  function ParseNat(s: string): nat
    requires AllDigits(s)
  {
    if |s| == 0 then 0 else ParseNat(s[..|s| - 1]) * 10 + DigitValue(s[|s| - 1])
  }

  /** Rendering a whole number and reading it back gives the number. */
  lemma {:induction false} ParseNatToString(n: nat)
    ensures ParseNat(NatToString(n)) == n
  {
    var s := NatToString(n);
    if n < 10 {
      assert s[..0] == "";
    } else {
      ParseNatToString(n / 10);
      assert s[..|s| - 1] == NatToString(n / 10);
    }
  }

  /** `x.toFixed(2)` for an amount of `x` whole cents held as `cents`:
      optional minus sign, the whole units, a point and exactly two digits. */
  function Fixed2(cents: int): (r: string)
    ensures |r| >= 4 && r[|r| - 3] == '.'
    ensures AllDigits(r[|r| - 2..])
    ensures cents < 0 <==> r[0] == '-'
    ensures cents >= 0 ==> r[..|r| - 3] == NatToString(cents / 100)
    ensures cents < 0 ==> r[1..|r| - 3] == NatToString(-cents / 100)
  {
    if cents < 0 then "-" + UnsignedFixed2(-cents) else UnsignedFixed2(cents)
  }

  function UnsignedFixed2(n: nat): (r: string)
    ensures |r| >= 4 && r[|r| - 3] == '.' && IsDigit(r[0])
    ensures AllDigits(r[..|r| - 3]) && AllDigits(r[|r| - 2..])
  {
    NatToString(n / 100) + "." + [DigitChar(n % 100 / 10), DigitChar(n % 10)]
  }

  /** Reads back a two-decimal rendering as whole cents. */
  function ParseFixed2(s: string): int
    requires |s| >= 4 && s[|s| - 3] == '.' && AllDigits(s[|s| - 2..])
    requires s[0] == '-' ==> AllDigits(s[1..|s| - 3])
    requires s[0] != '-' ==> AllDigits(s[..|s| - 3])
  {
    var frac := ParseNat(s[|s| - 2..]);
    if s[0] == '-' then -(ParseNat(s[1..|s| - 3]) * 100 + frac)
    else ParseNat(s[..|s| - 3]) * 100 + frac
  }

  /** The two halves of an unsigned rendering read back as the whole units
      and the cents. */
  lemma UnsignedFixed2Parts(n: nat)
    ensures var u := UnsignedFixed2(n);
      && u[..|u| - 3] == NatToString(n / 100)
      && ParseNat(u[|u| - 2..]) == n % 100
  {
    var u := UnsignedFixed2(n);
    var whole := NatToString(n / 100);
    var tail := [DigitChar(n % 100 / 10), DigitChar(n % 10)];
    assert u == whole + "." + tail;
    assert u[..|u| - 3] == whole;
    assert u[|u| - 2..] == tail;
    assert tail[..1][..0] == "";
    assert ParseNat(tail[..1]) == n % 100 / 10;
    assert tail[..1] == tail[..|tail| - 1];
  }

  /** An unsigned rendering reads back as its number of cents. */
  lemma UnsignedRoundTrip(n: nat)
    ensures ParseFixed2(UnsignedFixed2(n)) == n
  {
    UnsignedFixed2Parts(n);
    ParseNatToString(n / 100);
  }

  /** A negative rendering reads back as its (negative) number of cents. */
  lemma NegativeRoundTrip(n: int)
    requires n > 0
    ensures ParseFixed2("-" + UnsignedFixed2(n)) == -n
  {
    var u := UnsignedFixed2(n);
    var s := "-" + u;
    UnsignedFixed2Parts(n);
    ParseNatToString(n / 100);
    assert s[1..|s| - 3] == u[..|u| - 3];
    assert s[|s| - 2..] == u[|u| - 2..];
  }

  /** Money rendering loses nothing: the cents can be read back exactly. */
  lemma Fixed2RoundTrip(cents: int)
    ensures ParseFixed2(Fixed2(cents)) == cents
  {
    if cents < 0 {
      NegativeRoundTrip(-cents);
    } else {
      UnsignedRoundTrip(cents);
    }
  }

  /** The renderings of `xs`, one after the other, in order. */
  function Concat<T>(xs: seq<T>, render: T -> string): string {
    if |xs| == 0 then "" else render(xs[0]) + Concat(xs[1..], render)
  }

  /** Rendering a concatenation renders each part in turn. */
  lemma {:induction false} ConcatAppend<T>(a: seq<T>, b: seq<T>, render: T -> string)
    ensures Concat(a + b, render) == Concat(a, render) + Concat(b, render)
  {
    if |a| == 0 {
      assert a + b == b;
    } else {
      assert (a + b)[1..] == a[1..] + b;
      assert (a + b)[0] == a[0];
      ConcatAppend(a[1..], b, render);
    }
  }

  /** The rendering of a non-empty sequence ends with that of its last
      element. */
  lemma ConcatEndsWithLast<T>(xs: seq<T>, render: T -> string)
    requires |xs| > 0
    ensures EndsWith(Concat(xs, render), render(xs[|xs| - 1]))
  {
    var n := |xs|;
    assert xs == xs[..n - 1] + [xs[n - 1]];
    ConcatAppend(xs[..n - 1], [xs[n - 1]], render);
    assert Concat([xs[n - 1]], render) == render(xs[n - 1]) + Concat([], render);
  }

  /** `s.endsWith(suffix)`. */
  predicate EndsWith(s: string, suffix: string) {
    |suffix| <= |s| && s[|s| - |suffix|..] == suffix
  }

  /** A suffix of `y` is a suffix of `x + y`. */
  lemma SuffixOfAppend(x: string, y: string, z: string)
    requires EndsWith(y, z)
    ensures EndsWith(x + y, z)
  {
  }
}

=== FILE: wrappers.dfy ===
/** Optional values: a lookup that finds nothing, or text that does not
    parse as a number (JavaScript's `NaN`). */
module Wrappers {

  datatype Option<+T> = None | Some(value: T) {

    /** The wrapped value, or `default` when there is none. */
    function GetOr(default: T): T {
      match this
      case Some(v) => v
      case None => default
    }
  }
}
